=== FILE: README.md ===
# LAN music player: playback-sync protocol

This project models the playback-synchronisation core of a LAN music player
in Dafny. The relay hub in `server.js` holds one global playback state,
`{isPlaying, currentTime}`, and a registry of connected sockets. It reacts to
three socket events: connection, message and close. The viewer in
`public/client.js` applies the hub's messages to its local audio player. On
the controlling device it also reports the playback position once per timer
tick while its audio is playing, and after a user seek.

Both halves are pure functions over immutable records:

- `Hub.Step(h, e, open)` takes the hub state and one event. It returns the
  next state and the sends it makes, each send addressed to one socket.
  `open` is the set of sockets whose `readyState` is OPEN when the event is
  handled. That flag belongs to the WebSocket library, not to the hub, so it
  is an input here.
- `Viewer.OnMessage(p, m)` moves the abstract player `{paused, time}`.
- `Viewer.Heartbeat`, `Viewer.Seek` and `Viewer.Click` give the messages a
  device sends, and whether it is the controller is a parameter.
- `Clock.FormatTime` renders a position as `m:ss`.
- `Sync` composes the two halves. The hub's sends are delivered in order to
  the viewers on the receiving sockets. This follows one `updateTime` from
  the controller, through the hub's `syncTime` relay, into the 0.5-second
  dead-band check of every viewer on a registered OPEN socket.

Modules are `Protocol` (the decoded message vocabulary), `Hub`, `Viewer`,
`Clock` and `Sync`, one per file. Times are exact Dafny `real`s that stand in
for JavaScript numbers. The registry is a sequence without duplicates, kept
in insertion order, because a JavaScript `Set` is iterated in that order.

Three facts about the code shape the model:

- The hub does not broadcast its full state in answer to a message. It
  relays `play` and `pause` as they are and turns `updateTime` into
  `syncTime`.
- On `syncState` the viewer takes the position whether or not the hub is
  playing.
- There are no playlist messages, no upload handling and no persistence.

## Model

| member | source | states |
|---|---|---|
| Hub.Add | server.js:17 | registering a socket adds exactly it, keeps the earlier sockets first and in order, leaves the registry alone when the socket is already there, and never creates a duplicate |
| Hub.Remove | server.js:49-52 | removing a socket drops exactly it and keeps every other socket in its original order; with no duplicates, a registered socket shrinks the registry by one |
| Hub.Broadcast | server.js:55-61 | every send carries the given message to a registered socket that is OPEN, and every registered OPEN socket gets at least one send |
| Hub.BroadcastExactlyOnce | server.js:55-61 | with no duplicates in the registry, each registered OPEN socket receives the broadcast exactly once, the sender included, and every other socket receives nothing |
| Hub.Dispatch | server.js:27-47 | play sets the flag to true and pause sets it to false, whatever it was; updateTime stores its time; those three are broadcast (updateTime as syncTime); any other type leaves the state alone and sends nothing |
| Hub.Step | server.js:16-53 | a connection registers the socket and sends only that socket a syncState holding the current isPlaying and currentTime, with the playback state unchanged; a close removes exactly that socket, changes nothing else and sends nothing; a message never changes the registry; only play/pause change the flag and only updateTime changes the position; no duplicate ever enters the registry |
| Hub.UnknownTypeIgnored | server.js:30-46 | a message whose type is not play, pause or updateTime changes no state and sends nothing |
| Hub.UpdateTimeRelaysVerbatim | server.js:39-44 | updateTime{T} sets currentTime to T and nothing else, and every send is syncTime{T} with T unchanged, once to each registered OPEN socket |
| Hub.PauseIdempotent | server.js:35-38 | a second pause leaves the same state as the first, the flag false, and broadcasts the same sends |
| Hub.RunPlayingIsLatest | server.js:31-38 | after any sequence of events, isPlaying is the value asked for by the last play or pause message, or the initial value when there was none |
| Hub.LastPlayPauseWins | server.js:31-38 | whatever came before, a sequence that ends in play leaves isPlaying true and one that ends in pause leaves it false |
| Hub.RunTimeIsLatest | server.js:39-45 | after any sequence of events, currentTime is the time of the last updateTime message, or the initial value when there was none |
| Hub.RunMembership | server.js:16-52 | after any sequence of events, a socket is registered exactly when its last connect-or-close event was a connect, or, with neither, when it was registered at the start |
| Hub.RunKeepsDistinct | server.js:12 | the registry stays free of duplicates over any sequence of events |
| Hub.ReachableDistinct | server.js:12-14 | every hub state reachable from the initial one (not playing, position 0, no sockets) has a duplicate-free registry, so the exactly-once delivery results hold in every run |
| Viewer.OnMessage | public/client.js:20-42 | play and pause set the paused flag and leave the time alone. syncTime{T} snaps the time to exactly T when the drift is strictly over 0.5 s and otherwise changes nothing, and either way ends within 0.5 s of T. syncState always takes the position and starts playback iff the hub plays, never pausing. Every other type changes nothing |
| Viewer.SyncTimeIdempotent | public/client.js:30-34 | a repeated syncTime with the same time has no further effect |
| Viewer.OwnEchoIsStill | public/client.js:30-34 | a player, paused or playing, receiving syncTime of its own position does not move, so the controller's echoed heartbeat or seek leaves it in place |
| Viewer.DeadBandExamples | public/client.js:31 | at 42.0 a correction to 42.3 is ignored, at 40.0 it snaps to 42.3, and a drift of exactly 0.5 is ignored |
| Viewer.Heartbeat | public/client.js:67-74 | a tick makes the controller send exactly one updateTime carrying the local time when the player is not paused; a paused controller and a non-controller send nothing |
| Viewer.Seek | public/client.js:102-111 | a user seek sets the local time to the chosen position and keeps the paused flag; the controller then sends updateTime with that position, and a non-controller sends nothing |
| Viewer.Click | public/client.js:57-64 | on the controller the play button sends play and the pause button sends pause, one message each; a non-controller sends nothing |
| Clock.FormatTime | public/client.js:78-82 | a non-negative position renders as the whole minutes (whole seconds divided by 60), a colon, and the leftover seconds (0..59) as two digits with a leading zero |
| Clock.FloorFields | public/client.js:79-80 | for a non-negative position, floor(s/60) is the whole seconds divided by 60 and floor(s % 60) is their remainder |
| Clock.PadTwo | public/client.js:81 | padding the digits of a number below 100 to two places gives its two decimal digits |
| Clock.FormatTimeRoundTrip | public/client.js:78-82 | the rendering loses no whole seconds: m:ss reads back to floor(s) for every non-negative s |
| Clock.FormatTimeInjective | public/client.js:78-82 | distinct whole-second positions render differently |
| Clock.NegativeRendering | public/client.js:78-82 | a negative position renders the JavaScript way: the minutes field is signed, and the seconds field is signed unless the input is a whole number of minutes, so -5.5 becomes "-1:-6" and -60 becomes "-1:00" |
| Sync.Deliver | public/client.js:20-42 | delivering sends keeps the set of viewers, and a viewer that receives no send keeps its player |
| Sync.DeliverBroadcast | server.js:55-61 | delivering a broadcast applies the message once to each viewer on a registered OPEN socket and leaves every other viewer as it was |
| Sync.RelayTime | server.js:39-44 | one updateTime{T}, end to end: the hub stores T and nothing else. Each reachable viewer ends within 0.5 s of T, snapping to T exactly when it was farther off. No viewer's paused flag changes, and unreachable viewers are untouched |
| Sync.HeartbeatSync | public/client.js:67-74 | one heartbeat of a playing controller makes its position the hub's and brings every reachable viewer within 0.5 s of it, while the controller's own echo does not move it |
| Sync.SeekSync | public/client.js:102-111 | a controller's seek to t brings the hub to t and every reachable viewer within 0.5 s of t; a non-controller's seek sends nothing |
| Sync.JoinSync | server.js:16-25 | a joiner's snapshot puts its player at the hub's position, playing when the hub plays, and touches no other viewer |
| Sync.ClickSync | public/client.js:57-64 | a play or pause button on the controller, end to end: the hub's flag follows the button, every reachable viewer's paused flag follows it, and no position moves |
| Sync.TransportSync | server.js:31-38 | after a play or pause is relayed, every reachable viewer's paused flag is the opposite of the hub's isPlaying, and no position moves |

## Left out

- Express, the HTTP server, static file serving and `server.listen` (server.js:2-9, 63-65) are library plumbing. A socket is an abstract id, and its OPEN state is an input.
- `JSON.parse` and `JSON.stringify` are left out. Messages arrive already decoded. A malformed payload, which throws in the hub's handler, is not modelled, and neither is a message whose fields are missing or of the wrong type.
- The hub does not check who sent a message, and neither does the model. The WebSocket library delivers a message only from a connected socket, but the model lets a `Receive` come from any id, so the lemmas cover more event sequences than the program can produce.
- Sending on a socket is taken to succeed. Errors raised by the WebSocket library are not modelled.
- The DOM is left out: element lookups, status text, hiding the buttons, the progress-bar percentage, and the display handlers that call `formatTime` (public/client.js:3-10, 50-54, 85-100). These are presentation concerns. The percentage needs `duration`, which can be NaN.
- Timers and reconnection are left out (`setInterval`, `setTimeout(connect, 1000)`, `onopen`, `onclose`). A heartbeat is one explicit tick, not a period of real time.
- The audio element's own behaviour is left out: the position advancing while playing, a rejected `play()` promise, and `currentTime` being clamped to the media's duration. The model treats `play()` as always succeeding and a seek as landing exactly.
- Times are exact reals. Double-precision rounding, NaN and infinities are not modelled.
- Clock.FormatTime: the contract describes only non-negative positions. For negative input the body follows JavaScript's `Math.floor` and truncating `%`, but this is shown only on two values (-5.5 and -60) by Clock.NegativeRendering.
- Clock.FormatTime: minutes of 1e21 or more print in exponent form in JavaScript (`Number.prototype.toString`); the model always prints plain digits.
- `console.log` calls are left out.
- Playlist operations, uploads and persistence are not present in the code, so they are not modelled.

=== FILE: clock.dfy ===
/** `formatTime` of public/client.js: a position in seconds rendered as
    "minutes:seconds" with the seconds zero-padded to two places. The
    JavaScript number operations it uses are spelled out over exact reals:
    `Math.floor` is `Floor`, `%` keeps the sign of the dividend, an integer's
    `toString` (below 1e21 in magnitude, where JavaScript switches to exponent
    form) is its decimal digits with a leading '-' when negative, and
    `padStart(2, '0')` pads on the left. */
module Clock {
  import opened Protocol

  predicate IsDigit(c: char) {
    '0' <= c <= '9'
  }

  function DigitChar(d: nat): (c: char)
    requires d < 10
    ensures IsDigit(c)
  {
    ('0' as int + d) as char
  }

  function DigitValue(c: char): (d: nat)
    requires IsDigit(c)
    ensures d < 10 && DigitChar(d) == c
  {
    c as int - '0' as int
  }

  /** Decimal digits of a non-negative integer, most significant first,
      without leading zeros. */
  function Digits(n: nat): (s: string)
    ensures 1 <= |s|
    ensures forall k :: 0 <= k < |s| ==> IsDigit(s[k])
    ensures |s| == 1 <==> n < 10
    decreases n
  {
    if n < 10 then [DigitChar(n)] else Digits(n / 10) + [DigitChar(n % 10)]
  }

  /** `Number.prototype.toString` on an integer. */
  function IntToString(i: int): (s: string)
    ensures i >= 0 ==> s == Digits(i)
    ensures i < 0 ==> |s| >= 2 && s[0] == '-' && s[1..] == Digits(-i)
  {
    if i < 0 then "-" + Digits(-i) else Digits(i)
  }

  /** `String.prototype.padStart(2, '0')`. */
  function PadStart2(s: string): (r: string)
    ensures |r| == if |s| < 2 then 2 else |s|
    ensures r[|r| - |s|..] == s
    ensures forall k :: 0 <= k < |r| - |s| ==> r[k] == '0'
  {
    if |s| >= 2 then s else seq(2 - |s|, _ => '0') + s
  }

  /** Rounding toward zero, as a JavaScript remainder does. */
  function Trunc(x: real): (t: int)
    ensures x >= 0.0 ==> t == x.Floor
    ensures x < 0.0 ==> t == -((-x).Floor)
  {
    if x >= 0.0 then x.Floor else -((-x).Floor)
  }

  /** JavaScript's `x % y` on numbers: the result has the sign of `x`. */
  function JsRemainder(x: real, y: real): real
    requires y != 0.0
  {
    x - y * Trunc(x / y) as real
  }

  /** Two decimal places, with a leading zero below ten. */
  function TwoDigits(n: nat): (s: string)
    requires n < 100
    ensures |s| == 2 && IsDigit(s[0]) && IsDigit(s[1])
  {
    [DigitChar(n / 10), DigitChar(n % 10)]
  }

  /** `formatTime(seconds)`. For a non-negative position it is the whole
      minutes, a colon, and the leftover whole seconds (0..59) on two
      digits. */
  function FormatTime(seconds: real): (r: string)
    ensures seconds >= 0.0 ==> r == Digits(seconds.Floor / 60) + ":" + TwoDigits(seconds.Floor % 60)
  {
    var minutes := (seconds / 60.0).Floor;
    var remaining := JsRemainder(seconds, 60.0).Floor;
    assert seconds >= 0.0 ==> minutes == seconds.Floor / 60 && remaining == seconds.Floor % 60
                              && PadStart2(Digits(remaining)) == TwoDigits(remaining) by {
      if seconds >= 0.0 {
        FloorFields(seconds);
        PadTwo(seconds.Floor % 60);
      }
    }
    IntToString(minutes) + ":" + PadStart2(IntToString(remaining))
  }

  /** For a non-negative position the minutes field is the whole seconds
      divided by 60 and the seconds field is their remainder. */
  lemma FloorFields(s: real)
    requires s >= 0.0
    ensures (s / 60.0).Floor == s.Floor / 60
    ensures JsRemainder(s, 60.0).Floor == s.Floor % 60
  {
  }

  /** `padStart(2, '0')` of a number below a hundred is its two digits. */
  lemma PadTwo(n: nat)
    requires n < 100
    ensures PadStart2(Digits(n)) == TwoDigits(n)
  {
  }

  /** Reads back a run of decimal digits; `None` for anything else. */
  function ParseDigits(s: string): Option<nat>
    decreases |s|
  {
    if s == [] || !IsDigit(s[|s| - 1]) then None
    else if |s| == 1 then Some(DigitValue(s[0]))
    else
      match ParseDigits(s[..|s| - 1])
      case None => None
      case Some(v) => Some(10 * v + DigitValue(s[|s| - 1]))
  }

  /** Reads back a "m:ss" clock as a number of whole seconds. */
  function ParseClock(s: string): Option<nat> {
    if |s| < 4 || s[|s| - 3] != ':' then None
    else
      match (ParseDigits(s[..|s| - 3]), ParseDigits(s[|s| - 2..]))
      case (Some(m), Some(sec)) => if sec < 60 then Some(60 * m + sec) else None
      case _ => None
  }

  /** Decimal digits read back to the number they were written from. */
  lemma {:induction false} DigitsRoundTrip(n: nat)
    ensures ParseDigits(Digits(n)) == Some(n)
    decreases n
  {
    if n >= 10 {
      var s := Digits(n);
      assert s[..|s| - 1] == Digits(n / 10);
      DigitsRoundTrip(n / 10);
    }
  }

  /** No information about whole seconds is lost: a rendered non-negative
      position reads back to its whole number of seconds. */
  lemma FormatTimeRoundTrip(s: real)
    requires s >= 0.0
    ensures ParseClock(FormatTime(s)) == Some(s.Floor)
  {
    assert 0.0 <= s.Floor as real by {
      assert 0.0 <= s < s.Floor as real + 1.0;
    }
    var n: nat := s.Floor;
    var q, m := n / 60, n % 60;
    assert n == 60 * q + m;
    assert FormatTime(s) == Digits(q) + ":" + TwoDigits(m);
    ClockRoundTrip(q, m);
  }

  /** A clock written as minutes, a colon and two second digits reads back
      to the seconds it stands for. */
  lemma ClockRoundTrip(m: nat, sec: nat)
    requires sec < 60
    ensures ParseClock(Digits(m) + ":" + TwoDigits(sec)) == Some(60 * m + sec)
  {
    var mins := Digits(m);
    var secs := TwoDigits(sec);
    var r := mins + ":" + secs;
    assert r[|r| - 3] == ':';
    assert r[..|r| - 3] == mins;
    assert r[|r| - 2..] == secs;
    DigitsRoundTrip(m);
    TwoDigitsRoundTrip(sec);
  }

  /** Two padded digits read back to their number. */
  lemma TwoDigitsRoundTrip(n: nat)
    requires n < 100
    ensures ParseDigits(TwoDigits(n)) == Some(n)
  {
  }

  /** Distinct whole seconds are rendered differently. */
  lemma FormatTimeInjective(a: nat, b: nat)
    requires a != b
    ensures FormatTime(a as real) != FormatTime(b as real)
  {
    FormatTimeRoundTrip(a as real);
    FormatTimeRoundTrip(b as real);
  }

  /** Negative input is rendered as JavaScript does: the minutes field is
      signed, and the seconds field, rounded down, is signed unless the input
      is a whole number of minutes (JavaScript's `-0` prints as "0"). */
  lemma NegativeRendering()
    ensures FormatTime(-5.5) == "-1:-6"
    ensures FormatTime(-60.0) == "-1:00"
  {
    assert (-60.0 / 60.0).Floor == -1;
    assert JsRemainder(-60.0, 60.0) == 0.0;
    assert IntToString(-1) == "-" + Digits(1);
    assert PadStart2(IntToString(0)) == "00";
  }
}

=== FILE: hub.dfy ===
/** The relay hub of server.js: one global playback state, the registry of
    connected sockets, and the reaction to the three socket events
    (connection, message, close), as a pure step function that returns the
    next hub state together with the messages it sends. */
module Hub {
  import opened Protocol

  /** A socket, identified abstractly. */
  type ClientId = nat

  /** One `send` on one socket. */
  datatype Send = Send(to: ClientId, msg: Message)

  /** The hub's module-level variables: `isPlaying`, `currentTime` and the
      `clients` Set, kept as a sequence in insertion order (the order in
      which a JavaScript Set is iterated). */
  datatype HubState = HubState(isPlaying: bool, currentTime: real, clients: seq<ClientId>)

  /** The state the process starts in. */
  const Start: HubState := HubState(false, 0.0, [])

  /** The socket events the hub reacts to. */
  datatype Event =
    | Connect(id: ClientId)
    | Receive(from: ClientId, msg: Message)
    | Close(id: ClientId)

  /** The effect of one event: the next state and the sends, in order. */
  datatype Outcome = Outcome(hub: HubState, out: seq<Send>)

  /** No socket appears twice in the registry. */
  predicate Distinct(s: seq<ClientId>) {
    forall i, j :: 0 <= i < j < |s| ==> s[i] != s[j]
  }

  /** The first socket of a duplicate-free registry is not among the rest,
      and the rest is duplicate-free. */
  lemma DistinctHead(s: seq<ClientId>)
    requires Distinct(s) && s != []
    ensures s[0] !in s[1..] && Distinct(s[1..])
  {
  }

  /** How many of the sends in `out` go to socket `c`. */
  function Deliveries(c: ClientId, out: seq<Send>): nat {
    if out == [] then 0
    else (if out[0].to == c then 1 else 0) + Deliveries(c, out[1..])
  }

  /** `clients.add(ws)`: a Set keeps an already present member where it is. */
  function Add(clients: seq<ClientId>, id: ClientId): (r: seq<ClientId>)
    ensures forall c :: c in r <==> c in clients || c == id
    ensures clients <= r
    ensures id in clients ==> r == clients
    ensures Distinct(clients) ==> Distinct(r)
  {
    if id in clients then clients else clients + [id]
  }

  /** `a` is `b` with some elements left out, the rest in the same order. */
  predicate Subsequence(a: seq<ClientId>, b: seq<ClientId>)
    decreases |b|
  {
    if a == [] then true
    else if b == [] then false
    else if a[0] == b[0] then Subsequence(a[1..], b[1..])
    else Subsequence(a, b[1..])
  }

  /** `clients.delete(ws)`: drops `id` and keeps every other socket, in order. */
  function Remove(clients: seq<ClientId>, id: ClientId): (r: seq<ClientId>)
    ensures forall c :: c in r <==> c in clients && c != id
    ensures Subsequence(r, clients)
    ensures id !in clients ==> r == clients
    ensures Distinct(clients) ==> Distinct(r)
    ensures Distinct(clients) && id in clients ==> |r| == |clients| - 1
  {
    if clients == [] then []
    else if clients[0] == id then Remove(clients[1..], id)
    else
      var rest := Remove(clients[1..], id);
      assert Distinct(clients) ==> clients[0] !in clients[1..] by {
        if Distinct(clients) {
          DistinctHead(clients);
        }
      }
      assert ([clients[0]] + rest)[1..] == rest;
      [clients[0]] + rest
  }

  /** `broadcast(message)`: walks the registry and sends to each socket whose
      `readyState` is OPEN; `open` is the set of such sockets at that moment. */
  function Broadcast(clients: seq<ClientId>, open: set<ClientId>, m: Message): (out: seq<Send>)
    ensures forall k :: 0 <= k < |out| ==> out[k].msg == m && out[k].to in clients && out[k].to in open
    ensures forall c :: c in clients && c in open ==> Deliveries(c, out) >= 1
  {
    if clients == [] then []
    else if clients[0] in open then [Send(clients[0], m)] + Broadcast(clients[1..], open, m)
    else Broadcast(clients[1..], open, m)
  }

  /** With a registry free of duplicates, a broadcast reaches every OPEN
      registered socket exactly once and no other socket at all. */
  lemma {:induction false} BroadcastExactlyOnce(clients: seq<ClientId>, open: set<ClientId>, m: Message, c: ClientId)
    requires Distinct(clients)
    ensures Deliveries(c, Broadcast(clients, open, m)) == if c in clients && c in open then 1 else 0
    decreases |clients|
  {
    if clients != [] {
      var tail := clients[1..];
      DistinctHead(clients);
      BroadcastExactlyOnce(tail, open, m, c);
      if clients[0] in open {
        var out := [Send(clients[0], m)] + Broadcast(tail, open, m);
        assert out[1..] == Broadcast(tail, open, m);
      }
    }
  }

  /** The `switch (data.type)` of the message handler. */
  function Dispatch(h: HubState, m: Message, open: set<ClientId>): (r: Outcome)
    ensures r.hub.clients == h.clients
    ensures m.Play? ==> r.hub == h.(isPlaying := true)
    ensures m.Pause? ==> r.hub == h.(isPlaying := false)
    ensures m.UpdateTime? ==> r.hub == h.(currentTime := m.time)
    ensures m.Play? || m.Pause? || m.UpdateTime? ==> r.out == Broadcast(h.clients, open, Relayed(m))
    ensures !(m.Play? || m.Pause? || m.UpdateTime?) ==> r == Outcome(h, [])
  {
    match m
    case Play => Outcome(h.(isPlaying := true), Broadcast(h.clients, open, Play))
    case Pause => Outcome(h.(isPlaying := false), Broadcast(h.clients, open, Pause))
    case UpdateTime(t) => Outcome(h.(currentTime := t), Broadcast(h.clients, open, SyncTime(t)))
    case _ => Outcome(h, [])
  }

  /** What the hub broadcasts in answer to a message it acts on: play and
      pause are echoed, a time update goes out as a time sync. */
  function Relayed(m: Message): Message {
    if m.UpdateTime? then SyncTime(m.time) else m
  }

  /** One socket event, as the connection, message and close handlers. */
  function Step(h: HubState, e: Event, open: set<ClientId>): (r: Outcome)
    // A joiner is registered and alone receives a snapshot of the playback state.
    ensures e.Connect? ==> r.hub.isPlaying == h.isPlaying && r.hub.currentTime == h.currentTime
    ensures e.Connect? ==> (forall c :: c in r.hub.clients <==> c in h.clients || c == e.id)
    ensures e.Connect? ==> r.out == [Send(e.id, SyncState(h.isPlaying, h.currentTime))]
    // A closed socket leaves the registry; nothing else changes and nothing is sent.
    ensures e.Close? ==> r.hub.isPlaying == h.isPlaying && r.hub.currentTime == h.currentTime
    ensures e.Close? ==> (forall c :: c in r.hub.clients <==> c in h.clients && c != e.id)
    ensures e.Close? ==> r.out == []
    // A message never changes the registry.
    ensures e.Receive? ==> r.hub.clients == h.clients
    // Playing flag and playback position are written only by their own messages.
    ensures r.hub.isPlaying != h.isPlaying ==> e.Receive? && (e.msg.Play? || e.msg.Pause?)
    ensures r.hub.currentTime != h.currentTime ==> e.Receive? && e.msg.UpdateTime?
    // Every send of a message event goes to an OPEN registered socket.
    ensures e.Receive? ==> forall k :: 0 <= k < |r.out| ==> r.out[k].to in h.clients && r.out[k].to in open
    // The registry never gains a duplicate.
    ensures Distinct(h.clients) ==> Distinct(r.hub.clients)
  {
    match e
    case Connect(id) =>
      Outcome(h.(clients := Add(h.clients, id)), [Send(id, SyncState(h.isPlaying, h.currentTime))])
    case Receive(_, m) =>
      Dispatch(h, m, open)
    case Close(id) =>
      Outcome(h.(clients := Remove(h.clients, id)), [])
  }

  /** A message whose `type` the hub's switch does not list (including the
      hub-to-viewer types) is dropped silently: no state change, no send. */
  lemma UnknownTypeIgnored(h: HubState, from: ClientId, m: Message, open: set<ClientId>)
    requires TypeName(m) !in {"play", "pause", "updateTime"}
    ensures Step(h, Receive(from, m), open) == Outcome(h, [])
  {
  }

  /** `updateTime{time: T}` stores T and relays it verbatim as
      `syncTime{time: T}`, once to every OPEN registered socket, the sender
      included when it is registered and OPEN. */
  lemma UpdateTimeRelaysVerbatim(h: HubState, from: ClientId, t: real, open: set<ClientId>, c: ClientId)
    requires Distinct(h.clients)
    ensures var r := Step(h, Receive(from, UpdateTime(t)), open);
      && r.hub == h.(currentTime := t)
      && (forall k :: 0 <= k < |r.out| ==> r.out[k].msg == SyncTime(t))
      && Deliveries(c, r.out) == (if c in h.clients && c in open then 1 else 0)
  {
    BroadcastExactlyOnce(h.clients, open, SyncTime(t), c);
  }

  /** Two `pause` messages in a row leave the same state as one, and the
      second is broadcast just like the first. */
  lemma PauseIdempotent(h: HubState, a: ClientId, b: ClientId, open: set<ClientId>)
    ensures var r1 := Step(h, Receive(a, Pause), open);
      var r2 := Step(r1.hub, Receive(b, Pause), open);
      && r2.hub == r1.hub
      && !r2.hub.isPlaying
      && r2.out == r1.out
  {
  }

  /** One event together with the set of OPEN sockets when it is handled. */
  datatype Input = Input(event: Event, open: set<ClientId>)

  /** The hub after handling the inputs in arrival order. */
  function Run(h: HubState, trace: seq<Input>): HubState
    decreases |trace|
  {
    if trace == [] then h
    else Run(Step(h, trace[0].event, trace[0].open).hub, trace[1..])
  }

  /** The value `f` reports for the last input it reports anything for. */
  function Latest<T>(trace: seq<Input>, f: Input -> Option<T>): Option<T>
    decreases |trace|
  {
    if trace == [] then None
    else
      match Latest(trace[1..], f)
      case Some(v) => Some(v)
      case None => f(trace[0])
  }

  /** The playing flag a play or pause message asks for. */
  function PlayingRequest(i: Input): Option<bool> {
    match i.event
    case Receive(_, Play) => Some(true)
    case Receive(_, Pause) => Some(false)
    case _ => None
  }

  /** The position an updateTime message asks for. */
  function TimeRequest(i: Input): Option<real> {
    match i.event
    case Receive(_, UpdateTime(t)) => Some(t)
    case _ => None
  }

  /** Whether an input connects (true) or closes (false) socket `c`. */
  function MembershipChange(c: ClientId, i: Input): Option<bool> {
    match i.event
    case Connect(id) => if id == c then Some(true) else None
    case Close(id) => if id == c then Some(false) else None
    case Receive(_, _) => None
  }

  /** Last writer wins: after any trace the playing flag is the one asked for
      by the last play/pause message, or the initial one if there was none. */
  lemma {:induction false} RunPlayingIsLatest(h: HubState, trace: seq<Input>)
    ensures Run(h, trace).isPlaying == Latest(trace, PlayingRequest).GetOr(h.isPlaying)
    decreases |trace|
  {
    if trace != [] {
      var h1 := Step(h, trace[0].event, trace[0].open).hub;
      RunPlayingIsLatest(h1, trace[1..]);
    }
  }

  /** Last writer wins for the position: after any trace `currentTime` is
      the time of the last updateTime message, or the initial one. */
  lemma {:induction false} RunTimeIsLatest(h: HubState, trace: seq<Input>)
    ensures Run(h, trace).currentTime == Latest(trace, TimeRequest).GetOr(h.currentTime)
    decreases |trace|
  {
    if trace != [] {
      var h1 := Step(h, trace[0].event, trace[0].open).hub;
      RunTimeIsLatest(h1, trace[1..]);
    }
  }

  /** A socket is registered after a trace exactly when its last connect or
      close event was a connect, or, with neither, when it was registered
      before. */
  lemma {:induction false} RunMembership(h: HubState, trace: seq<Input>, c: ClientId)
    ensures c in Run(h, trace).clients <==> Latest(trace, i => MembershipChange(c, i)).GetOr(c in h.clients)
    decreases |trace|
  {
    if trace != [] {
      var h1 := Step(h, trace[0].event, trace[0].open).hub;
      RunMembership(h1, trace[1..], c);
    }
  }

  /** The registry stays free of duplicates over any trace. */
  lemma {:induction false} RunKeepsDistinct(h: HubState, trace: seq<Input>)
    requires Distinct(h.clients)
    ensures Distinct(Run(h, trace).clients)
    decreases |trace|
  {
    if trace != [] {
      RunKeepsDistinct(Step(h, trace[0].event, trace[0].open).hub, trace[1..]);
    }
  }

  /** Every hub state reachable from the start has a duplicate-free
      registry, so the exactly-once results that assume one apply to every
      run of the program. */
  lemma ReachableDistinct(trace: seq<Input>)
    ensures Distinct(Run(Start, trace).clients)
  {
    RunKeepsDistinct(Start, trace);
  }

  /** A trace that ends in a play or pause message leaves exactly the flag
      that message asks for, whatever came before it. */
  lemma LastPlayPauseWins(h: HubState, trace: seq<Input>, from: ClientId, m: Message, open: set<ClientId>)
    requires m.Play? || m.Pause?
    ensures Run(h, trace + [Input(Receive(from, m), open)]).isPlaying == m.Play?
  {
    var t := trace + [Input(Receive(from, m), open)];
    RunPlayingIsLatest(h, t);
    LatestOfLast(trace, Input(Receive(from, m), open), PlayingRequest);
  }

  /** An input `f` reports on overrides everything before it. */
  lemma {:induction false} LatestOfLast<T>(trace: seq<Input>, i: Input, f: Input -> Option<T>)
    requires f(i).Some?
    ensures Latest(trace + [i], f) == f(i)
    decreases |trace|
  {
    if trace == [] {
      assert [i][1..] == [];
    } else {
      assert (trace + [i])[1..] == trace[1..] + [i];
      LatestOfLast(trace[1..], i, f);
    }
  }
}

=== FILE: protocol.dfy ===
/** The wire vocabulary shared by the hub (server.js) and the viewer
    (public/client.js). Every message on the socket is a JSON object whose
    `type` field selects its shape; here a message is taken already decoded,
    one constructor per `type` value the two programs act on. */
module Protocol {

  /** Conventional optional value. */
  datatype Option<T> = None | Some(value: T) {
    /** The carried value, or `default` when there is none. */
    function GetOr(default: T): T {
      match this
      case Some(v) => v
      case None => default
    }
  }

  /** The `type` strings that some side of the protocol dispatches on. */
  const KnownTypes: set<string> := {"play", "pause", "updateTime", "syncTime", "syncState"}

  /** A `type` string neither side dispatches on. A known `type` string
      always decodes to its own constructor, never to `Other`. */
  type UnknownType = k: string | k !in KnownTypes witness ""

  /** One decoded message. Times are seconds, taken as exact reals. */
  datatype Message =
    | Play                                          // {type:'play'}
    | Pause                                         // {type:'pause'}
    | UpdateTime(time: real)                        // {type:'updateTime', time}, controller to hub
    | SyncTime(time: real)                          // {type:'syncTime', time}, hub to viewers
    | SyncState(isPlaying: bool, currentTime: real) // {type:'syncState', ...}, hub to a joiner
    | Other(kind: UnknownType)                      // any other `type` value

  /** The `type` string a message carries on the wire. */
  function TypeName(m: Message): (k: string)
    ensures k in KnownTypes <==> !m.Other?
  {
    match m
    case Play => "play"
    case Pause => "pause"
    case UpdateTime(_) => "updateTime"
    case SyncTime(_) => "syncTime"
    case SyncState(_, _) => "syncState"
    case Other(k) => k
  }
}

=== FILE: sync.dfy ===
/** The two halves composed: what the hub sends is applied, in order, by the
    viewers on the other end of each socket. This follows a controller's
    `updateTime` through the hub's `syncTime` relay into the dead-band
    check of every viewer on a registered OPEN socket, and a joiner's
    snapshot into its player. */
module Sync {
  import opened Protocol
  import opened Hub
  import opened Viewer

  /** The local players of the viewers, by socket. */
  type Viewers = map<ClientId, Player>

  /** Each send handled, in order, by the `onmessage` of the viewer it is
      addressed to; sends to sockets without a viewer are lost. */
  function Deliver(vs: Viewers, out: seq<Send>): (ws: Viewers)
    ensures ws.Keys == vs.Keys
    ensures forall c :: c in vs && Deliveries(c, out) == 0 ==> ws[c] == vs[c]
    decreases |out|
  {
    if out == [] then vs
    else
      var s := out[0];
      var next := if s.to in vs then vs[s.to := OnMessage(vs[s.to], s.msg)] else vs;
      Deliver(next, out[1..])
  }

  /** Delivering a broadcast over a duplicate-free registry hands the message
      exactly once to every viewer whose socket is registered and OPEN, and
      leaves every other viewer as it was. */
  lemma {:induction false} DeliverBroadcast(vs: Viewers, clients: seq<ClientId>, open: set<ClientId>, m: Message)
    requires Distinct(clients)
    ensures var ws := Deliver(vs, Broadcast(clients, open, m));
      && ws.Keys == vs.Keys
      && forall c :: c in vs ==> ws[c] == if c in clients && c in open then OnMessage(vs[c], m) else vs[c]
    decreases |clients|
  {
    if clients != [] {
      var c0, tail := clients[0], clients[1..];
      DistinctHead(clients);
      if c0 in open {
        var out := [Send(c0, m)] + Broadcast(tail, open, m);
        assert out[1..] == Broadcast(tail, open, m);
        var next := if c0 in vs then vs[c0 := OnMessage(vs[c0], m)] else vs;
        assert Deliver(vs, out) == Deliver(next, Broadcast(tail, open, m));
        DeliverBroadcast(next, tail, open, m);
      } else {
        DeliverBroadcast(vs, tail, open, m);
      }
    }
  }

  /** One controller time report, end to end. The hub stores the reported
      time T and nothing else; every viewer on a registered OPEN socket ends
      within the dead-band of T, snapping to T exactly when it was farther
      off and keeping its position otherwise, and no viewer's paused flag
      changes; viewers on other sockets are untouched. */
  lemma RelayTime(h: HubState, from: ClientId, t: real, open: set<ClientId>, vs: Viewers)
    requires Distinct(h.clients)
    ensures var r := Step(h, Receive(from, UpdateTime(t)), open);
      var ws := Deliver(vs, r.out);
      && r.hub == h.(currentTime := t)
      && ws.Keys == vs.Keys
      && (forall c :: c in vs ==> ws[c].paused == vs[c].paused)
      && (forall c :: c in vs && c in h.clients && c in open ==> Abs(ws[c].time - t) <= DeadBand)
      && (forall c :: c in vs && c in h.clients && c in open && Abs(vs[c].time - t) > DeadBand ==> ws[c].time == t)
      && (forall c :: c in vs && !(c in h.clients && c in open && Abs(vs[c].time - t) > DeadBand) ==> ws[c] == vs[c])
  {
    var r := Step(h, Receive(from, UpdateTime(t)), open);
    assert r.out == Broadcast(h.clients, open, SyncTime(t));
    DeliverBroadcast(vs, h.clients, open, SyncTime(t));
    var ws := Deliver(vs, r.out);
    forall c | c in vs
      ensures ws[c] == if c in h.clients && c in open then OnMessage(vs[c], SyncTime(t)) else vs[c]
    {
    }
  }

  /** One heartbeat of a playing controller, end to end: its own position
      becomes the hub's, every reachable viewer ends within the dead-band of
      it, and the controller's own player, receiving the echo, stays put. */
  lemma HeartbeatSync(h: HubState, me: ClientId, p: Player, open: set<ClientId>, vs: Viewers)
    requires Distinct(h.clients)
    requires !p.paused
    requires me in vs && vs[me] == p
    ensures var sent := Heartbeat(true, p);
      && sent == [UpdateTime(p.time)]
      && var r := Step(h, Receive(me, sent[0]), open);
      var ws := Deliver(vs, r.out);
      && r.hub.currentTime == p.time
      && r.hub.isPlaying == h.isPlaying
      && ws[me] == p
      && (forall c :: c in vs && c in h.clients && c in open ==> Abs(ws[c].time - p.time) <= DeadBand)
  {
    RelayTime(h, me, p.time, open, vs);
  }

  /** A controller's seek, end to end: the hub and every reachable viewer
      follow the new position to within the dead-band. A seek on a viewer
      that is not the controller reaches nobody. */
  lemma SeekSync(h: HubState, me: ClientId, isController: bool, p: Player, t: real, open: set<ClientId>, vs: Viewers)
    requires Distinct(h.clients)
    ensures var sent := Seek(isController, p, t).out;
      && (!isController ==> sent == [])
      && (isController ==>
            var r := Step(h, Receive(me, sent[0]), open);
            var ws := Deliver(vs, r.out);
            && r.hub.currentTime == t
            && (forall c :: c in vs && c in h.clients && c in open ==> Abs(ws[c].time - t) <= DeadBand))
  {
    RelayTime(h, me, t, open, vs);
  }

  /** A joiner, end to end: the snapshot it is sent puts its player at the
      hub's position, playing if the hub is playing; no other viewer is
      touched. */
  lemma JoinSync(h: HubState, id: ClientId, open: set<ClientId>, vs: Viewers)
    requires id in vs
    ensures var r := Step(h, Connect(id), open);
      var ws := Deliver(vs, r.out);
      && id in r.hub.clients
      && ws[id].time == h.currentTime
      && (h.isPlaying ==> !ws[id].paused)
      && (forall c :: c in vs && c != id ==> ws[c] == vs[c])
  {
  }

  /** Play and pause, end to end: the hub's flag and every reachable
      viewer's player agree after the echo, and no position moves. */
  lemma TransportSync(h: HubState, from: ClientId, m: Message, open: set<ClientId>, vs: Viewers)
    requires Distinct(h.clients)
    requires m.Play? || m.Pause?
    ensures var r := Step(h, Receive(from, m), open);
      var ws := Deliver(vs, r.out);
      && (forall c :: c in vs && c in h.clients && c in open ==> ws[c].paused == !r.hub.isPlaying)
      && (forall c :: c in vs ==> ws[c].time == vs[c].time)
  {
    DeliverBroadcast(vs, h.clients, open, m);
  }

  /** A transport button on the controller, end to end: the hub's flag
      becomes playing for the play button and paused for the pause button,
      every reachable viewer follows it, and no position moves. */
  lemma ClickSync(h: HubState, me: ClientId, b: Button, open: set<ClientId>, vs: Viewers)
    requires Distinct(h.clients)
    ensures var sent := Click(true, b);
      && |sent| == 1
      && var r := Step(h, Receive(me, sent[0]), open);
      var ws := Deliver(vs, r.out);
      && r.hub.isPlaying == (b == PlayButton)
      && r.hub.currentTime == h.currentTime
      && (forall c :: c in vs && c in h.clients && c in open ==> ws[c].paused == (b == PauseButton))
      && (forall c :: c in vs ==> ws[c].time == vs[c].time)
  {
    TransportSync(h, me, Click(true, b)[0], open, vs);
  }
}

=== FILE: viewer.dfy ===
/** The viewer of public/client.js: how an incoming message moves the local
    audio player, and what the controlling device sends on its heartbeat,
    on a transport button and on a user seek. The audio element is
    abstracted to its `paused` flag and its `currentTime`. */
module Viewer {
  import opened Protocol

  /** Corrections no larger than this many seconds are ignored. */
  const DeadBand: real := 0.5

  /** The local audio element, as far as the protocol touches it. */
  datatype Player = Player(paused: bool, time: real)

  /** `Math.abs`. */
  function Abs(x: real): (r: real)
    ensures r >= 0.0 && (r == x || r == -x)
  {
    if x < 0.0 then -x else x
  }

  /** The `ws.onmessage` switch. */
  function OnMessage(p: Player, m: Message): (q: Player)
    // play and pause drive the paused flag and never move the position.
    ensures m.Play? ==> !q.paused && q.time == p.time
    ensures m.Pause? ==> q.paused && q.time == p.time
    // syncTime: a drift beyond the dead-band snaps to the hub's time exactly,
    // anything within it is left alone; either way the drift ends up within it.
    ensures m.SyncTime? ==> q.paused == p.paused
    ensures m.SyncTime? && Abs(p.time - m.time) > DeadBand ==> q.time == m.time
    ensures m.SyncTime? && Abs(p.time - m.time) <= DeadBand ==> q == p
    ensures m.SyncTime? ==> Abs(q.time - m.time) <= DeadBand
    // syncState: always takes the position, starts playback when the hub
    // plays, and never pauses.
    ensures m.SyncState? ==> q.time == m.currentTime
    ensures m.SyncState? ==> (q.paused <==> p.paused && !m.isPlaying)
    // Anything else (updateTime included) changes nothing.
    ensures m.UpdateTime? || m.Other? ==> q == p
  {
    match m
    case Play => p.(paused := false)
    case Pause => p.(paused := true)
    case SyncTime(t) => if Abs(p.time - t) > DeadBand then p.(time := t) else p
    case SyncState(playing, t) => Player(if playing then false else p.paused, t)
    case _ => p
  }

  /** What the controlling device sends on one tick of its one-second
      timer; a non-controlling device has no timer. */
  function Heartbeat(isController: bool, p: Player): (out: seq<Message>)
    ensures |out| <= 1
    ensures |out| == 1 <==> isController && !p.paused
    ensures forall k :: 0 <= k < |out| ==> out[k] == UpdateTime(p.time)
  {
    if isController && !p.paused then [UpdateTime(p.time)] else []
  }

  /** The local player together with the messages sent to the hub. */
  datatype Reaction = Reaction(player: Player, out: seq<Message>)

  /** The progress bar's `change` handler: the user picked position `t`. */
  function Seek(isController: bool, p: Player, t: real): (r: Reaction)
    ensures r.player.time == t && r.player.paused == p.paused
    ensures isController ==> r.out == [UpdateTime(t)]
    ensures !isController ==> r.out == []
  {
    Reaction(p.(time := t), if isController then [UpdateTime(t)] else [])
  }

  /** The two transport buttons. */
  datatype Button = PlayButton | PauseButton

  /** A button click: only the controller has handlers, and a handler only
      asks the hub; the local player waits for the hub's echo. */
  function Click(isController: bool, b: Button): (out: seq<Message>)
    ensures !isController ==> out == []
    ensures isController ==> |out| == 1 && (out[0] == Play <==> b == PlayButton)
    ensures forall k :: 0 <= k < |out| ==> out[k] == Play || out[k] == Pause
  {
    if !isController then []
    else if b == PlayButton then [Play] else [Pause]
  }

  /** A repeated `syncTime` with the same time changes nothing: after the
      first, the player is already within the dead-band. */
  lemma SyncTimeIdempotent(p: Player, t: real)
    ensures OnMessage(OnMessage(p, SyncTime(t)), SyncTime(t)) == OnMessage(p, SyncTime(t))
  {
  }

  /** A player receiving `syncTime` of its own position never moves, paused
      or not: the controller's heartbeat or seek, echoed back by the hub,
      leaves it where it is. */
  lemma OwnEchoIsStill(p: Player)
    ensures OnMessage(p, SyncTime(p.time)) == p
  {
  }

  /** Worked example: at 42.0 a correction to 42.3 is ignored, at 40.0 it
      snaps to 42.3; exactly half a second is ignored. */
  lemma DeadBandExamples(paused: bool)
    ensures OnMessage(Player(paused, 42.0), SyncTime(42.3)).time == 42.0
    ensures OnMessage(Player(paused, 40.0), SyncTime(42.3)).time == 42.3
    ensures OnMessage(Player(paused, 10.0), SyncTime(10.5)).time == 10.0
  {
  }
}
